=== FILE: README.md ===
# Korea payment mock: ledger state machine and helpers, modelled in Dafny

This project models the core of a mock payment-orchestration service for
Korean payment gateways and proves properties of the model.

The first part is the transaction ledger of `PaymentService`. It maps a
transaction id to a record. Four operations act on it: initialize, process,
cancel and status query. There is also the fixed table of five supported
gateways with their display names.

The second part is the pure helpers the service and its callers use:
- amount validation;
- card-number masking;
- the e-mail and Korean mobile-number patterns;
- the string shaping of order-id generation.

## Layout

| file | module | contents |
|---|---|---|
| `wrappers.dfy` | `Wrappers` | `Option` and `Result` |
| `js_values.dfy` | `JsValues` | the JavaScript values the service and the helpers are called with, `typeof`/`<= 0`/`Number.isFinite`/truthiness |
| `helpers.dfy` | `Helpers` | `validateAmount`, which currency codes `formatCurrency` accepts, `maskCardNumber`, `validateEmail`, `validateKoreanPhone` |
| `order_ids.dfy` | `OrderIds` | `generateOrderId` with its clock reading and random bytes as inputs, and a parser proving the id determines them |
| `payment_service.dfy` | `PaymentService` | the gateway table, the ledger and its four operations |
| `payment_runs.dfy` | `PaymentRuns` | sequences of calls; the record invariant and what stays fixed across calls |

Each service operation is a pure function of the ledger before the call.
Processing and cancelling make every check before their first mutation, so
they return `Err(kind)` where the service throws, with no ledger, and
`Ok((ledger', response))` otherwise; `PaymentRuns.Step` keeps the old
ledger on `Err`.

Initialization is different. Its gateway and amount checks come before the
record is stored, but the response is built after it, and `formatCurrency`
throws there when `Intl.NumberFormat` rejects the currency code (an empty
string, `null`, a number, `true`, ...). Such a call fails with the new record
already in the ledger, under an id the caller never learns. So
`InitializePayment` returns an `InitOutcome`: the ledger after the call
together with the response or the error (`PaymentRuns.RejectedCurrencyStillStores`).

Inputs the service reads from its environment are parameters:
- `now`: the clock reading used for time stamps;
- `IdSeed`: the clock reading and four random bytes of one call to the id
  generator.

The service does not check that a generated transaction id is unused. On a
collision, `Map.set` would replace the old record, and the model does the
same. Properties that need fresh ids take freshness as a hypothesis
(`FreshCall`, `FreshRun`). `OrderIds.GenerateOrderIdInjective` shows that
ids collide only when both the clock reading and the random bytes repeat.

Numbers are modelled as `Num(real)`, `NaN`, `PosInf` and `NegInf`. Strings,
booleans, `null`, `undefined` and opaque objects (known by an identity and by
the string they convert to) are the other values a request field can hold.

`cancelPayment` refuses only missing and already-cancelled records, so a
completed payment can still be cancelled (`PaymentRuns.CompletedCanBeCancelled`).

## Model

| member | source | states |
|---|---|---|
| `Helpers.ValidateAmount` | src/utils/helpers.js:22-33 | the three checks (type number, not `<= 0`, finite) accept exactly the finite numbers greater than zero; NaN, both infinities, zero, negatives and non-numbers are refused |
| `Helpers.AmountExamples` | src/utils/helpers.test.js:36-64 | the accepted and refused amounts of the helper tests |
| `Helpers.CurrencyExamples` | src/utils/helpers.js:41-48 | `formatCurrency` accepts a missing currency (default `KRW`) and three-letter codes of either case, including an object whose string form is one; it throws for `""`, four letters, a digit inside the code, `null`, a number, `true` and a plain object |
| `Helpers.DigitsOf` | src/utils/helpers.js:77 | removing non-digits yields only ASCII digits and is no longer than the input |
| `Helpers.DigitsOfKeepsEveryDigit` | src/utils/helpers.js:77 | every digit of the input is kept, as often as it occurs, and no other character survives |
| `Helpers.DigitsOfAppend` | src/utils/helpers.js:77 | cleaning distributes over concatenation |
| `Helpers.DigitsOfAllDigits` | src/utils/helpers.js:77 | a string of digits is unchanged by cleaning |
| `Helpers.DigitsOfIdempotent` | src/utils/helpers.js:77 | cleaning twice equals cleaning once |
| `Helpers.MaskDependsOnlyOnDigits` | src/utils/helpers.js:76-85 | the mask of a card number equals the mask of its digits alone, so separators make no difference |
| `Helpers.MaskCardNumber` | src/utils/helpers.js:76-85 | below eight digits the mask has one character per digit |
| `Helpers.MaskShort` | src/utils/helpers.js:78-80 | below eight digits the mask is all stars, one per digit |
| `Helpers.MaskLongShape` | src/utils/helpers.js:81-84 | from eight digits on, the mask is the first four digits, a middle part, and the last four digits |
| `Helpers.MaskMiddleChars` | src/utils/helpers.js:83-84 | the middle part holds only stars and dashes, has at least one star, and is `n-1` characters long up to 12 digits and `n-5` beyond |
| `Helpers.MaskLongReveals` | src/utils/helpers.js:81-84 | from eight digits on, the mask starts with the first four digits and ends with the last four; it shows only stars and dashes between them and contains a star; its length is the digit count plus 7 (up to 12 digits) or plus 3 |
| `Helpers.MaskHidesMiddleDigits` | src/utils/helpers.js:81-84 | two card numbers with the same digit count, first four and last four digits are masked identically, so the mask reveals nothing of the hidden digits |
| `Helpers.MaskShortExample` | src/utils/helpers.test.js:113-116 | `1234` is masked as `****` |
| `Helpers.MaskMiddleOfSixteen` | src/utils/helpers.js:83-84 | sixteen digits give the middle part `-****-****-` |
| `Helpers.MaskSixteenDigits` | src/utils/helpers.js:81-84 | a sixteen-digit card number is masked as its first four digits, `-****-****-`, and its last four digits |
| `Helpers.MaskLongExample` | src/utils/helpers.test.js:106-111 | `1234567890123456` is masked as `1234-****-****-3456` |
| `Helpers.ValidateEmailCharacterization` | src/utils/helpers.js:55-58 | the pattern accepts an address exactly when it has no white space, exactly one `@`, a non-empty part before it, and a dot with text on both sides after it |
| `Helpers.EmailAcceptsTestAddress` | src/utils/helpers.test.js:80-83 | `test@example.com` is accepted |
| `Helpers.EmailAcceptsDottedLocalPart` | src/utils/helpers.test.js:80-83 | `user.name@domain.co.kr` is accepted |
| `Helpers.EmailRejectsNoAt` | src/utils/helpers.test.js:85-89 | `invalid` is refused |
| `Helpers.EmailRejectsNoDot` | src/utils/helpers.test.js:85-89 | `missing@domain` is refused |
| `Helpers.EmailRejectsEmptyLocalPart` | src/utils/helpers.test.js:85-89 | `@nodomain.com` is refused |
| `Helpers.ValidateKoreanPhoneMatchesPattern` | src/utils/helpers.js:65-69 | the backtracking matcher accepts a string exactly when some choice of the two optional separators and a 3- or 4-digit middle group spells it out after `01` and a digit |
| `Helpers.PhoneMatchSplits` | src/utils/helpers.js:67 | a successful match determines the separators and the middle length it used |
| `Helpers.PhoneSplitMatches` | src/utils/helpers.js:67 | every spelling the pattern describes is accepted by the matcher |
| `Helpers.PhoneDigitCount` | src/utils/helpers.js:67 | an accepted number starts with `01`, has 10 or 11 digits and is 10 to 13 characters long |
| `Helpers.DigitsOfPhonePieces` | src/utils/helpers.js:67 | the digits of a matched number are its prefix, middle and last groups |
| `Helpers.PhoneAcceptsDocumentedFormats` | src/utils/helpers.js:66-67 | every number of the documented plain, dashed and spaced formats is accepted |
| `Helpers.PhoneAcceptsDashed` | src/utils/helpers.test.js:93-97 | `010-1234-5678` is accepted |
| `Helpers.PhoneAcceptsPlain` | src/utils/helpers.test.js:93-97 | `01012345678` is accepted |
| `Helpers.PhoneAcceptsSpaced` | src/utils/helpers.test.js:93-97 | `010 1234 5678` is accepted |
| `Helpers.PhoneRejectsOtherPrefixes` | src/utils/helpers.test.js:99-102 | `123-456-7890` and `02-1234-5678` are refused |
| `OrderIds.GenerateOrderId` | src/utils/helpers.js:11-15 | an order id is at least 14 characters long, starts with `ORD-`, has no lower-case letter, and equals its own upper-case form |
| `OrderIds.Base36RoundTrip` | src/utils/helpers.js:12 | the upper-cased base-36 text of the clock reading reads back as the same number |
| `OrderIds.HexRoundTrip` | src/utils/helpers.js:13 | the upper-cased hex text of the random bytes reads back as the same bytes |
| `OrderIds.ParseGenerateRoundTrip` | src/utils/helpers.js:11-15 | parsing an order id recovers exactly the clock reading and random bytes it was made from |
| `OrderIds.GenerateOrderIdInjective` | src/utils/helpers.js:11-15 | two ids are equal only if they were made from the same clock reading and the same random bytes |
| `PaymentService.GatewayDisplayName` | src/services/paymentService.js:160-169 | a gateway in the table gets its non-empty display name; any other id is returned as it is |
| `PaymentService.GetSupportedGateways` | src/services/paymentService.js:148-153 | exactly the five gateways in constructor order, each with its non-empty display name |
| `PaymentService.InitializePayment` | src/services/paymentService.js:19-53 | the gateway is checked before the amount; each failure has its own error and leaves the ledger unchanged. Past both checks the generated id is added to the key set and no other entry changes. The new record is `initialized` and keeps the given gateway, amount, product and customer names, and currency (`KRW` only when the currency is missing). Its order id is the supplied one if truthy, otherwise a second generated id. The call then succeeds exactly when `formatCurrency` accepts the currency, and the response echoes both ids; otherwise it fails with an invalid-currency error and the record stays stored |
| `PaymentService.InitializeGrowsByOne` | src/services/paymentService.js:30-44 | past the gateway and amount checks, a fresh generated id makes the ledger grow by exactly one record, also when the call then throws for its currency |
| `PaymentService.ProcessPayment` | src/services/paymentService.js:61-88 | an absent id fails as not found; a record not `initialized` fails with an invalid-status error. Otherwise the record becomes `completed` with the payment details and completion time attached. Its identity fields are unchanged, no other entry changes, and the response reports `completed` |
| `PaymentService.GetTransactionStatus` | src/services/paymentService.js:95-112 | fails exactly when the id is absent; otherwise returns the record's order id, status, amount, currency, gateway and time stamps |
| `PaymentService.CancelPayment` | src/services/paymentService.js:120-142 | fails only for an absent id or an already `cancelled` record. Otherwise, from `initialized` or `completed` alike, the record becomes `cancelled` with the reason and time recorded. Every other field and entry is unchanged |
| `PaymentRuns.EmptyLedgerValid` | src/services/paymentService.js:9-12 | a new service starts with an empty ledger satisfying the record invariant |
| `PaymentRuns.InitializeKeepsValid` | src/services/paymentService.js:19-53 | every initialization keeps the record invariant, whether it returns or throws: a call refused for gateway or amount stores nothing, and any other call stores a record under its own id with a supported gateway, a positive amount and no processing or cancellation fields |
| `PaymentRuns.ProcessKeepsValid` | src/services/paymentService.js:73-80 | a successful processing keeps the record invariant: the record is `completed` with details and completion time, and not cancelled |
| `PaymentRuns.CancelKeepsValid` | src/services/paymentService.js:131-134 | a successful cancellation keeps the record invariant: the record is `cancelled` with reason and cancellation time |
| `PaymentRuns.StepPreservesValid` | src/services/paymentService.js:19-142 | every call keeps the invariant: records are keyed by their id, use a supported gateway and a positive amount, are never left `processing`, and carry exactly the optional fields their status implies |
| `PaymentRuns.StepPreservesRecords` | src/services/paymentService.js:61-142 | with a fresh generated id, a call keeps every existing record and its creation-time fields. A status changes only from `initialized` to `completed` or from any non-cancelled status to `cancelled`, and a cancelled record is not touched |
| `PaymentRuns.StepKeepsKeys` | src/services/paymentService.js:44 | no call removes a record |
| `PaymentRuns.RunPreservesValid` | src/services/paymentService.js:19-142 | the record invariant holds after any sequence of calls |
| `PaymentRuns.RunKeepsKeys` | src/services/paymentService.js:44 | no sequence of calls removes a record |
| `PaymentRuns.RunPreservesRecords` | src/services/paymentService.js:61-142 | along a sequence with fresh ids, creation-time fields never change, a status never moves backwards, and a cancelled record never changes again |
| `PaymentRuns.ProcessTwiceFails` | src/services/paymentService.js:68-70 | a transaction that was processed cannot be processed again |
| `PaymentRuns.CancelTwiceFails` | src/services/paymentService.js:127-129 | a transaction that was cancelled cannot be cancelled again |
| `PaymentRuns.CompletedCanBeCancelled` | src/services/paymentService.js:127-134 | a completed transaction can be cancelled, and its completion time is kept |
| `PaymentRuns.ScenarioInitializeAndProcess` | src/services/paymentService.test.js:49-86 | a request with a supported gateway, a positive amount and no currency initializes; the status is then `initialized` with the requested amount; processing moves it to `completed`, which a second status read shows; a second processing fails with the invalid-status error |
| `PaymentRuns.ScenarioCancelTwice` | src/services/paymentService.test.js:106-119 | initializing `kg` for 8000 with no currency succeeds; cancelling it succeeds with status `cancelled`; a second cancellation fails as already cancelled |
| `PaymentRuns.InfiniteAmountRefused` | src/utils/helpers.js:29-31 | with a supported gateway, an infinite amount (what an overflowing JSON number such as `1e400` decodes to) fails with the invalid-amount error and leaves the ledger unchanged |
| `PaymentRuns.RejectedCurrencyStillStores` | src/services/paymentService.js:44-51 | an initialization with an empty currency code fails with the invalid-currency error, yet its record is in the ledger and, with a fresh id, the ledger has grown by one |
| `PaymentRuns.InitializeThenStatus` | src/services/paymentService.js:30-111 | once past the gateway and amount checks, a status read of the generated id shows `initialized` with the requested amount, gateway and currency (`KRW` by default), both time stamps at the call, and the order id the response reported; this holds even when the call throws for its currency |
| `PaymentRuns.ProcessThenStatus` | src/services/paymentService.js:61-111 | after a successful processing, the status read shows `completed` and the call time as last update; it showed `initialized` before, and every other field reads the same |
| `PaymentRuns.CancelThenStatus` | src/services/paymentService.js:95-142 | after a successful cancellation, the status read shows `cancelled` and the call time as last update; it showed another status before, and every other field reads the same |

## Left out

- HTTP server, routing, request-body parsing and response writing are not part of this model. They are transport around the service.
- The string `formatCurrency` produces, and so the `formattedAmount` field of the initialize response, is left out. The formatting is done by `Intl.NumberFormat`; only whether it accepts the currency code or throws is modelled.
- The `success` flags and `message` strings of the responses are left out. The error kinds stand for the thrown messages; `UnsupportedGateway` carries the offending value that the message quotes.
- `async`/Promise wrapping is left out. Each operation is a synchronous function returning a result.
- The clock is read several times within one call in the source. The model uses one `now` per call.
- The clock reading of the id generator is a `nat`. A clock before 1970, giving a negative millisecond count, is not modelled.
- Finite numbers are exact reals: rounding, and the difference between `+0` and `-0`, are not modelled. Neither changes any result of the modelled code. A JSON number too large for a double (`1e400`, `-1e400`) already arrives as an infinity; the model has it as `PosInf` or `NegInf`, and the finiteness check refuses it as an amount (`PaymentRuns.InfiniteAmountRefused`).
- Objects such as payment details are opaque values with an identity and the string they convert to; their contents are never inspected by the service, and the string form matters only as a currency code.
- An object whose string conversion itself throws (a JSON object such as `{"toString": 0}`) is not modelled: every `Object` has a string form. As a gateway, such an object makes building the "Unsupported payment gateway" message throw a `TypeError` instead, while the model returns `UnsupportedGateway`; the ledger is unchanged either way. As a currency it throws after the record is stored, which `InvalidCurrencyCode` already stands for.
- A `null` request body makes the destructuring in `initializePayment` throw a `TypeError`. This is not modelled. Other non-object bodies (`5`, `"toss"`, `true`) read every field as `undefined`, which is what `PaymentData` with all six fields `Undefined` stands for; the call then fails as an unsupported gateway.
- Transaction ids are strings in the model. A non-string id would never match a key, which is the same as "not found".
- `MaskCardNumber`, `ValidateEmail` and `ValidateKoreanPhone` take strings. A non-string argument to `maskCardNumber` throws, and `RegExp.test` converts one to a string first; neither path is modelled.
- `GatewayDisplayName`: does not model lookups of names inherited from `Object.prototype` (`constructor`, `toString`, ...). For those, the source returns the inherited member instead of the raw id. The service only ever asks for the five supported ids, which are own properties of the table.
- `OrderIds.UpperChar` maps only ASCII letters. This matches `toUpperCase` exactly on order ids, whose characters are all ASCII.
- The transient `processing` status is modelled as the intermediate record of `ProcessPayment`. It is never visible between calls, so there is no concurrency between the two halves.
- Concurrency is not modelled. Calls run one after another, as in a single-threaded host.

=== FILE: helpers.dfy ===
/** The pure validators and string helpers of the helper utilities:
    amount validation, card-number masking, and the e-mail and Korean phone
    number patterns. Order-id generation lives in module OrderIds. */
module Helpers {
  import opened JsValues

  // ---------------------------------------------------------------------------
  // validateAmount
  // ---------------------------------------------------------------------------

  /** The three checks in the order the helper makes them: the value must be
      of type number, must not compare `<= 0`, and must be finite. The result
      is true exactly for the finite numbers strictly greater than zero, so
      NaN, both infinities, zero, negatives and every non-number fail. */
  function ValidateAmount(amount: JsValue): (valid: bool)
    ensures valid <==> amount.Num? && amount.value > 0.0
  {
    if !IsNumber(amount) then false
    else if AtMostZero(amount) then false
    else if !IsFinite(amount) then false
    else true
  }

  // ---------------------------------------------------------------------------
  // formatCurrency
  // ---------------------------------------------------------------------------

  /** IsWellFormedCurrencyCode of ECMA-402 (section 6.3.1): three code units,
      each an ASCII letter of either case. */
  predicate IsWellFormedCurrencyCode(code: string) {
    |code| == 3 && forall i :: 0 <= i < 3 ==> 'A' <= code[i] <= 'Z' || 'a' <= code[i] <= 'z'
  }

  /** Whether `formatCurrency(amount, currency)` returns rather than throws.
      `undefined` takes the parameter default `'KRW'`. Otherwise
      `Intl.NumberFormat` converts the option with `String(currency)` and
      throws a RangeError unless the result is a well-formed currency code.
      The decimal form of a finite number always holds a digit, and
      `"Infinity"`, `"-Infinity"`, `"true"`, `"false"` and `"null"` are not
      three letters long, so among the non-strings only NaN (`"NaN"`) and an
      object whose string form is a code get through. Whether the code names
      a real currency is not checked. */
  predicate FormatCurrencyAccepts(currency: JsValue) {
    match currency
    case Undefined => true
    case Str(s) => IsWellFormedCurrencyCode(s)
    case NaN => true
    case Num(_) => false
    case PosInf => false
    case NegInf => false
    case Bool(_) => false
    case Null => false
    case Object(_, text) => IsWellFormedCurrencyCode(text)
  }

  // ---------------------------------------------------------------------------
  // Characters
  // ---------------------------------------------------------------------------

  /** `\d` of a regular expression without the `u` flag: ASCII digits only. */
  predicate IsDigit(c: char) {
    '0' <= c <= '9'
  }

  predicate AllDigits(s: string) {
    forall i :: 0 <= i < |s| ==> IsDigit(s[i])
  }

  /** `\s` of an ECMAScript regular expression: the WhiteSpace and
      LineTerminator code points (tab, line feed, vertical tab, form feed,
      carriage return, space, no-break space, the Zs separators, line and
      paragraph separator, and the byte-order mark). */
  predicate IsJsWhitespace(c: char) {
    || c == '\t' || c == '\n' || c == '\U{000B}' || c == '\U{000C}' || c == '\r'
    || c == ' ' || c == '\U{00A0}' || c == '\U{1680}'
    || ('\U{2000}' <= c <= '\U{200A}')
    || c == '\U{2028}' || c == '\U{2029}' || c == '\U{202F}' || c == '\U{205F}'
    || c == '\U{3000}' || c == '\U{FEFF}'
  }

  // ---------------------------------------------------------------------------
  // maskCardNumber
  // ---------------------------------------------------------------------------

  /** `s.replace(/\D/g, '')`: the digits of `s`, in order. */
  function DigitsOf(s: string): (d: string)
    ensures |d| <= |s|
    ensures AllDigits(d)
  {
    if s == [] then []
    else
      assert s == [s[0]] + s[1..];
      (if IsDigit(s[0]) then [s[0]] else []) + DigitsOf(s[1..])
  }

  /** A string of `n` asterisks: `'*'.repeat(n)`. */
  function Stars(n: nat): (r: string)
    ensures |r| == n
    ensures forall i :: 0 <= i < n ==> r[i] == '*'
  {
    seq(n, _ => '*')
  }

  function Min(a: int, b: int): int {
    if a <= b then a else b
  }

  /** `s || fallback` on strings: the empty string is falsy. */
  function OrIfEmpty(s: string, fallback: string): string {
    if s != "" then s else fallback
  }

  /** Keeps the digits only; fewer than eight of them become as many stars.
      Otherwise the first and last four digits are kept and the middle is
      replaced by `middle.slice(0, 4)` and `middle.slice(4) || '****'`, where
      `middle` is one star per hidden digit. */
  function MaskCardNumber(cardNumber: string): (masked: string)
    ensures |DigitsOf(cardNumber)| < 8 ==> |masked| == |DigitsOf(cardNumber)|
  {
    MaskCleaned(DigitsOf(cardNumber))
  }

  /** The masking of the helper once the non-digits are gone. */
  function MaskCleaned(cleaned: string): (masked: string)
    ensures |cleaned| < 8 ==> |masked| == |cleaned|
  {
    if |cleaned| < 8 then Stars(|cleaned|)
    else
      var first4 := cleaned[..4];
      var last4 := cleaned[|cleaned| - 4..];
      var middle := Stars(|cleaned| - 8);
      var cut := Min(4, |middle|);
      first4 + "-" + middle[..cut] + "-" + OrIfEmpty(middle[cut..], "****") + "-" + last4
  }

  /** What stands between the first and the last four digits of the mask of
      `n >= 8` digits, with the slicing of the helper worked out: a dash, up
      to four stars, a dash, the stars beyond the fourth or a fixed `****`
      when there are none, and a dash. */
  function MaskMiddle(n: nat): string
    requires n >= 8
  {
    "-" + Stars(Min(4, n - 8)) + "-" + (if n > 12 then Stars(n - 12) else "****") + "-"
  }

  /** The middle part is made of stars and dashes only, contains a star, and
      is `n - 1` characters long up to 12 digits (7 to 11), and `n - 5`
      beyond. */
  lemma MaskMiddleChars(n: nat)
    requires n >= 8
    ensures |MaskMiddle(n)| == (if n > 12 then n - 5 else n - 1)
    ensures forall i :: 0 <= i < |MaskMiddle(n)| ==> MaskMiddle(n)[i] == '*' || MaskMiddle(n)[i] == '-'
    ensures '*' in MaskMiddle(n)
  {
    var a := Stars(Min(4, n - 8));
    var b := if n > 12 then Stars(n - 12) else "****";
    var m := "-" + a + "-" + b + "-";
    assert |m| == 3 + |a| + |b|;
    forall i | 0 <= i < |m|
      ensures m[i] == '*' || m[i] == '-'
    {
      if 0 < i < 1 + |a| {
        assert m[i] == a[i - 1];
      } else if 1 + |a| < i < 2 + |a| + |b| {
        assert m[i] == b[i - 2 - |a|];
      }
    }
    assert m[2 + |a|] == b[0];
  }

  lemma {:induction false} DigitsOfAppend(a: string, b: string)
    ensures DigitsOf(a + b) == DigitsOf(a) + DigitsOf(b)
    decreases |a|
  {
    if a == [] {
      assert a + b == b;
    } else {
      var head := if IsDigit(a[0]) then [a[0]] else [];
      assert (a + b)[1..] == a[1..] + b;
      assert (a + b)[0] == a[0];
      assert DigitsOf(a + b) == head + DigitsOf(a[1..] + b);
      assert DigitsOf(a) == head + DigitsOf(a[1..]);
      DigitsOfAppend(a[1..], b);
    }
  }

  /** Removing non-digits keeps a string of digits as it is. */
  lemma {:induction false} DigitsOfAllDigits(s: string)
    requires AllDigits(s)
    ensures DigitsOf(s) == s
    decreases |s|
  {
    if s != [] {
      assert AllDigits(s[1..]);
      DigitsOfAllDigits(s[1..]);
    }
  }

  /** Cleaning keeps every digit of the input, each as often as it occurs,
      and nothing else. */
  lemma {:induction false} DigitsOfKeepsEveryDigit(s: string)
    ensures forall c :: IsDigit(c) ==> multiset(DigitsOf(s))[c] == multiset(s)[c]
    ensures forall c :: !IsDigit(c) ==> multiset(DigitsOf(s))[c] == 0
    decreases |s|
  {
    if s != [] {
      assert s == [s[0]] + s[1..];
      DigitsOfKeepsEveryDigit(s[1..]);
    }
  }

  /** Cleaning twice is cleaning once. */
  lemma DigitsOfIdempotent(s: string)
    ensures DigitsOf(DigitsOf(s)) == DigitsOf(s)
  {
    DigitsOfAllDigits(DigitsOf(s));
  }

  /** The mask sees the card number only through its digits: separators,
      spaces and any other non-digit characters make no difference. */
  lemma MaskDependsOnlyOnDigits(cardNumber: string)
    ensures MaskCardNumber(cardNumber) == MaskCardNumber(DigitsOf(cardNumber))
  {
    DigitsOfIdempotent(cardNumber);
  }

  /** Fewer than eight digits: the mask is one star per digit and no digit
      at all is shown. */
  lemma MaskShort(cardNumber: string)
    requires |DigitsOf(cardNumber)| < 8
    ensures MaskCardNumber(cardNumber) == Stars(|DigitsOf(cardNumber)|)
    ensures forall i :: 0 <= i < |MaskCardNumber(cardNumber)| ==> MaskCardNumber(cardNumber)[i] == '*'
  {
  }

  /** Eight or more digits: the mask is the first four digits, the middle
      part of stars and dashes, and the last four digits. */
  lemma MaskLongShape(cardNumber: string)
    requires |DigitsOf(cardNumber)| >= 8
    ensures var d := DigitsOf(cardNumber);
      MaskCardNumber(cardNumber) == d[..4] + MaskMiddle(|d|) + d[|d| - 4..]
  {
    MaskCleanedLong(DigitsOf(cardNumber));
  }

  lemma MaskCleanedLong(d: string)
    requires |d| >= 8
    ensures MaskCleaned(d) == d[..4] + MaskMiddle(|d|) + d[|d| - 4..]
  {
    var n := |d|;
    var middle := Stars(n - 8);
    var cut := Min(4, |middle|);
    var x := middle[..cut];
    var y := OrIfEmpty(middle[cut..], "****");
    assert x == Stars(Min(4, n - 8));
    if n > 12 {
      assert middle[cut..] == Stars(n - 12);
    } else {
      assert middle[cut..] == "";
    }
    var mid := "-" + x + "-" + y + "-";
    assert MaskMiddle(n) == mid;
    calc {
      MaskCleaned(d);
      d[..4] + "-" + x + "-" + y + "-" + d[n - 4..];
      { ConcatRegroup(d[..4], "-", x, "-", y, "-", d[n - 4..]); }
      d[..4] + mid + d[n - 4..];
    }
  }

  lemma ConcatRegroup(a: string, b: string, c: string, d: string, e: string, f: string, g: string)
    ensures a + b + c + d + e + f + g == a + (b + c + d + e + f) + g
  {
  }

  /** With eight or more digits the mask starts with the first four digits and
      ends with the last four; everything strictly between is a star or a
      dash, so no middle digit is revealed; it contains at least one star; and
      its length is the digit count plus 7 (up to 12 digits) or plus 3. */
  lemma MaskLongReveals(cardNumber: string)
    requires |DigitsOf(cardNumber)| >= 8
    ensures var d := DigitsOf(cardNumber); var m := MaskCardNumber(cardNumber);
      && |m| == (if |d| > 12 then |d| + 3 else |d| + 7)
      && m[..4] == d[..4]
      && m[|m| - 4..] == d[|d| - 4..]
      && (forall i :: 4 <= i < |m| - 4 ==> m[i] == '*' || m[i] == '-')
      && '*' in m
  {
    var d := DigitsOf(cardNumber);
    var n := |d|;
    MaskLongShape(cardNumber);
    MaskMiddleChars(n);
    var mid := MaskMiddle(n);
    var m := d[..4] + mid + d[n - 4..];
    assert m[..4] == d[..4];
    assert m[|m| - 4..] == d[n - 4..];
    forall i | 4 <= i < |m| - 4
      ensures m[i] == '*' || m[i] == '-'
    {
      assert m[i] == mid[i - 4];
    }
    var j :| 0 <= j < |mid| && mid[j] == '*';
    assert m[4 + j] == '*';
  }

  /** The mask does not depend on the hidden digits: two card numbers whose
      cleaned digits agree in count, in the first four and in the last four
      are masked identically. */
  lemma MaskHidesMiddleDigits(card1: string, card2: string)
    requires |DigitsOf(card1)| == |DigitsOf(card2)|
    requires |DigitsOf(card1)| >= 8
    requires DigitsOf(card1)[..4] == DigitsOf(card2)[..4]
    requires DigitsOf(card1)[|DigitsOf(card1)| - 4..] == DigitsOf(card2)[|DigitsOf(card2)| - 4..]
    ensures MaskCardNumber(card1) == MaskCardNumber(card2)
  {
    MaskLongShape(card1);
    MaskLongShape(card2);
  }

  // ---------------------------------------------------------------------------
  // validateEmail: /^[^\s@]+@[^\s@]+\.[^\s@]+$/
  // ---------------------------------------------------------------------------

  /** `[^\s@]` */
  predicate EmailChar(c: char) {
    !IsJsWhitespace(c) && c != '@'
  }

  /** `[^\s@]+` */
  predicate EmailRun(t: string) {
    |t| > 0 && forall k :: 0 <= k < |t| ==> EmailChar(t[k])
  }

  /** The pattern matches `s` with its `@` at index `at` and the `.` that
      the escaped dot consumes at index `dot`. */
  predicate EmailSplit(s: string, at: int, dot: int) {
    && 0 <= at < dot < |s|
    && s[at] == '@'
    && s[dot] == '.'
    && EmailRun(s[..at])
    && EmailRun(s[at + 1..dot])
    && EmailRun(s[dot + 1..])
  }

  /** The anchored pattern matches: some choice of the `@` and of the dot
      splits `email` into three non-empty runs without white space or `@`. */
  predicate ValidateEmail(email: string) {
    exists at, dot | 0 <= at < dot < |email| :: EmailSplit(email, at, dot)
  }

  predicate NoWhitespace(s: string) {
    forall k :: 0 <= k < |s| ==> !IsJsWhitespace(s[k])
  }

  /** `s` has an `@` at `at` and nowhere else. */
  predicate OnlyAtSignAt(s: string, at: int) {
    0 <= at < |s| && s[at] == '@' && forall k :: 0 <= k < |s| && s[k] == '@' ==> k == at
  }

  /** `d` has a `.` with at least one character on each side of it. */
  predicate HasInnerDot(d: string) {
    exists k :: 0 < k < |d| - 1 && d[k] == '.'
  }

  /** An e-mail address is accepted exactly when it has no white space,
      exactly one `@`, a non-empty part before it, and a part after it that
      contains a dot with text on both sides. */
  lemma ValidateEmailCharacterization(s: string)
    ensures ValidateEmail(s) <==>
      && NoWhitespace(s)
      && (exists at :: OnlyAtSignAt(s, at) && at > 0 && HasInnerDot(s[at + 1..]))
  {
    if ValidateEmail(s) {
      var at, dot :| 0 <= at < dot < |s| && EmailSplit(s, at, dot);
      EmailSplitProperties(s, at, dot);
    }
    if NoWhitespace(s) && (exists at :: OnlyAtSignAt(s, at) && at > 0 && HasInnerDot(s[at + 1..])) {
      var at :| OnlyAtSignAt(s, at) && at > 0 && HasInnerDot(s[at + 1..]);
      var k :| 0 < k < |s[at + 1..]| - 1 && s[at + 1..][k] == '.';
      EmailSplitFromParts(s, at, at + 1 + k);
    }
  }

  lemma EmailSplitProperties(s: string, at: int, dot: int)
    requires EmailSplit(s, at, dot)
    ensures NoWhitespace(s)
    ensures OnlyAtSignAt(s, at) && at > 0 && HasInnerDot(s[at + 1..])
  {
  }

  lemma EmailSplitFromParts(s: string, at: int, dot: int)
    requires NoWhitespace(s) && OnlyAtSignAt(s, at) && at > 0
    requires at + 1 < dot < |s| - 1 && s[dot] == '.'
    ensures EmailSplit(s, at, dot)
  {
  }

  // ---------------------------------------------------------------------------
  // validateKoreanPhone: /^01[0-9][-\s]?[0-9]{3,4}[-\s]?[0-9]{4}$/
  // ---------------------------------------------------------------------------

  /** `[-\s]` */
  predicate IsPhoneSeparator(c: char) {
    c == '-' || IsJsWhitespace(c)
  }

  /** The anchored pattern matches `s` when the optional first separator is
      present iff `a == 1`, the middle group has `m` digits and the optional
      second separator is present iff `b == 1`. */
  predicate PhoneSplit(s: string, a: nat, m: nat, b: nat) {
    && a <= 1 && 3 <= m <= 4 && b <= 1
    && |s| == 3 + a + m + b + 4
    && s[0] == '0' && s[1] == '1' && IsDigit(s[2])
    && (a == 1 ==> IsPhoneSeparator(s[3]))
    && AllDigits(s[3 + a..3 + a + m])
    && (b == 1 ==> IsPhoneSeparator(s[3 + a + m]))
    && AllDigits(s[3 + a + m + b..])
  }

  /** `phoneRegex.test(phone)`, evaluated the way a backtracking matcher
      does: the prefix `01` and a digit, then the optional separator (tried
      present first), the middle group (four digits tried before three), the
      second optional separator, and exactly four digits to the end. */
  predicate ValidateKoreanPhone(phone: string) {
    |phone| >= 3 && phone[0] == '0' && phone[1] == '1' && IsDigit(phone[2])
    && MatchAfterPrefix(phone[3..])
  }

  predicate MatchAfterPrefix(t: string) {
    (|t| > 0 && IsPhoneSeparator(t[0]) && MatchMiddle(t[1..])) || MatchMiddle(t)
  }

  predicate MatchMiddle(t: string) {
    || (|t| >= 4 && AllDigits(t[..4]) && MatchAfterMiddle(t[4..]))
    || (|t| >= 3 && AllDigits(t[..3]) && MatchAfterMiddle(t[3..]))
  }

  predicate MatchAfterMiddle(u: string) {
    (|u| > 0 && IsPhoneSeparator(u[0]) && MatchLast(u[1..])) || MatchLast(u)
  }

  predicate MatchLast(v: string) {
    |v| == 4 && AllDigits(v)
  }

  /** The matcher accepts exactly the strings the pattern describes: some
      choice of the two optional separators and of a three- or four-digit
      middle group spells out the whole string. */
  lemma ValidateKoreanPhoneMatchesPattern(phone: string)
    ensures ValidateKoreanPhone(phone) <==>
      exists a: nat, m: nat, b: nat | a <= 1 && 3 <= m <= 4 && b <= 1 :: PhoneSplit(phone, a, m, b)
  {
    if ValidateKoreanPhone(phone) {
      var a, m, b := PhoneMatchSplits(phone);
    }
    if exists a: nat, m: nat, b: nat | a <= 1 && 3 <= m <= 4 && b <= 1 :: PhoneSplit(phone, a, m, b) {
      var a: nat, m: nat, b: nat :| a <= 1 && 3 <= m <= 4 && b <= 1 && PhoneSplit(phone, a, m, b);
      PhoneSplitMatches(phone, a, m, b);
    }
  }

  /** The choices the matcher made, read back from a successful match. */
  lemma PhoneMatchSplits(phone: string) returns (a: nat, m: nat, b: nat)
    requires ValidateKoreanPhone(phone)
    ensures a <= 1 && 3 <= m <= 4 && b <= 1 && PhoneSplit(phone, a, m, b)
  {
    var t := phone[3..];
    a := if |t| > 0 && IsPhoneSeparator(t[0]) && MatchMiddle(t[1..]) then 1 else 0;
    var t' := t[a..];
    assert MatchMiddle(t');
    m := if |t'| >= 4 && AllDigits(t'[..4]) && MatchAfterMiddle(t'[4..]) then 4 else 3;
    var u := t'[m..];
    assert MatchAfterMiddle(u);
    b := if |u| > 0 && IsPhoneSeparator(u[0]) && MatchLast(u[1..]) then 1 else 0;
    var v := u[b..];
    assert MatchLast(v);
    assert |phone| == 3 + a + m + b + 4;
    assert phone[3 + a..3 + a + m] == t'[..m];
    assert phone[3 + a + m + b..] == v;
    assert a == 1 ==> phone[3] == t[0];
    assert b == 1 ==> phone[3 + a + m] == u[0];
  }

  lemma PhoneSplitMatches(phone: string, a: nat, m: nat, b: nat)
    requires PhoneSplit(phone, a, m, b)
    ensures ValidateKoreanPhone(phone)
  {
    var t := phone[3..];
    var t' := t[a..];
    var u := t'[m..];
    var v := u[b..];
    assert t'[..m] == phone[3 + a..3 + a + m];
    assert v == phone[3 + a + m + b..];
    assert MatchLast(v);
    assert b == 1 ==> u[0] == phone[3 + a + m];
    assert MatchAfterMiddle(u);
    assert MatchMiddle(t');
    assert a == 1 ==> t[0] == phone[3] && t[1..] == t';
    assert MatchAfterPrefix(t);
  }

  /** Every accepted phone number starts with `01` and carries ten or eleven
      digits, with at most two separators between them. */
  lemma PhoneDigitCount(phone: string)
    requires ValidateKoreanPhone(phone)
    ensures phone[..2] == "01"
    ensures |DigitsOf(phone)| == 10 || |DigitsOf(phone)| == 11
    ensures 10 <= |phone| <= 13
  {
    var a, m, b := PhoneMatchSplits(phone);
    var i, j, k := 3 + a, 3 + a + m, 3 + a + m + b;
    var p, s1, mid, s2, last := phone[..3], phone[3..i], phone[i..j], phone[j..k], phone[k..];
    assert phone == p + s1 + mid + s2 + last;
    assert AllDigits(p);
    DigitsOfPhonePieces(p, s1, mid, s2, last);
  }

  lemma DigitsOfPhonePieces(p: string, s1: string, mid: string, s2: string, last: string)
    requires AllDigits(p) && AllDigits(mid) && AllDigits(last)
    requires |s1| <= 1 && forall k :: 0 <= k < |s1| ==> IsPhoneSeparator(s1[k])
    requires |s2| <= 1 && forall k :: 0 <= k < |s2| ==> IsPhoneSeparator(s2[k])
    ensures DigitsOf(p + s1 + mid + s2 + last) == p + mid + last
  {
    DigitsOfAllDigits(p);
    DigitsOfAllDigits(mid);
    DigitsOfAllDigits(last);
    SeparatorsHaveNoDigits(s1);
    SeparatorsHaveNoDigits(s2);
    var x1 := p + s1;
    DigitsOfAppend(p, s1);
    assert DigitsOf(x1) == p;
    var x2 := x1 + mid;
    DigitsOfAppend(x1, mid);
    assert DigitsOf(x2) == p + mid;
    var x3 := x2 + s2;
    DigitsOfAppend(x2, s2);
    assert DigitsOf(x3) == p + mid;
    DigitsOfAppend(x3, last);
  }

  lemma SeparatorsHaveNoDigits(s: string)
    requires |s| <= 1
    requires forall k :: 0 <= k < |s| ==> IsPhoneSeparator(s[k])
    ensures DigitsOf(s) == []
  {
  }

  /** The three formats named beside the pattern: the eleven digits plain,
      grouped 3-4-4 with dashes, and grouped with spaces, for any digits. */
  lemma PhoneAcceptsDocumentedFormats(x: char, mid: string, last: string, sep: string)
    requires IsDigit(x) && AllDigits(mid) && AllDigits(last)
    requires 3 <= |mid| <= 4 && |last| == 4
    requires sep == "" || sep == "-" || sep == " "
    ensures ValidateKoreanPhone("01" + [x] + sep + mid + sep + last)
  {
  }

  // ---------------------------------------------------------------------------
  // The cases exercised by the helper tests
  // ---------------------------------------------------------------------------

  lemma AmountExamples()
    ensures ValidateAmount(Num(100.0)) && ValidateAmount(Num(1.0)) && ValidateAmount(Num(99999.0))
    ensures !ValidateAmount(Num(0.0)) && !ValidateAmount(Num(-1.0)) && !ValidateAmount(Num(-100.0))
    ensures !ValidateAmount(Str("100")) && !ValidateAmount(Null) && !ValidateAmount(Undefined)
    ensures !ValidateAmount(PosInf) && !ValidateAmount(NegInf) && !ValidateAmount(NaN)
  {
  }

  /** The currency codes that reach `formatCurrency` from a request body:
      the default, codes of either case, and the values that throw. */
  lemma CurrencyExamples()
    ensures FormatCurrencyAccepts(Undefined) && FormatCurrencyAccepts(Str("KRW")) && FormatCurrencyAccepts(Str("usd"))
    ensures !FormatCurrencyAccepts(Str("")) && !FormatCurrencyAccepts(Str("KRWX")) && !FormatCurrencyAccepts(Str("K1W"))
    ensures !FormatCurrencyAccepts(Null) && !FormatCurrencyAccepts(Num(123.0)) && !FormatCurrencyAccepts(Bool(true))
    ensures !FormatCurrencyAccepts(Object(0, "[object Object]")) && FormatCurrencyAccepts(Object(0, "EUR"))
  {
    assert "K1W"[1] == '1';
  }

  lemma EmailAcceptsTestAddress()
    ensures ValidateEmail("test@example.com")
  {
    var e := "test@example.com";
    assert e[..4] == "test";
    assert e[5..12] == "example";
    assert e[13..] == "com";
    assert EmailSplit(e, 4, 12);
  }

  lemma EmailRejectsNoAt()
    ensures !ValidateEmail("invalid")
  {
  }

  lemma EmailRejectsNoDot()
    ensures !ValidateEmail("missing@domain")
  {
  }

  lemma EmailRejectsEmptyLocalPart()
    ensures !ValidateEmail("@nodomain.com")
  {
  }

  lemma EmailAcceptsDottedLocalPart()
    ensures ValidateEmail("user.name@domain.co.kr")
  {
    var e := "user.name@domain.co.kr";
    assert e[..9] == "user.name";
    assert e[10..16] == "domain";
    assert e[17..] == "co.kr";
    assert EmailSplit(e, 9, 16);
  }

  lemma PhoneAcceptsDashed()
    ensures ValidateKoreanPhone("010-1234-5678")
  {
  }

  lemma PhoneAcceptsPlain()
    ensures ValidateKoreanPhone("01012345678")
  {
  }

  lemma PhoneAcceptsSpaced()
    ensures ValidateKoreanPhone("010 1234 5678")
  {
  }

  lemma PhoneRejectsOtherPrefixes()
    ensures !ValidateKoreanPhone("123-456-7890")
    ensures !ValidateKoreanPhone("02-1234-5678")
  {
  }

  lemma MaskShortExample()
    ensures MaskCardNumber("1234") == "****"
  {
  }

  lemma MaskMiddleOfSixteen()
    ensures MaskMiddle(16) == "-****-****-"
  {
  }

  /** Sixteen digits, the usual card length: four shown, eight hidden in two
      groups, four shown. */
  lemma MaskSixteenDigits(cardNumber: string)
    requires |DigitsOf(cardNumber)| == 16
    ensures var d := DigitsOf(cardNumber);
      MaskCardNumber(cardNumber) == d[..4] + "-****-****-" + d[12..]
  {
    MaskLongShape(cardNumber);
    MaskMiddleOfSixteen();
  }

  lemma MaskLongExample(c: string)
    requires c == "1234567890123456"
    ensures MaskCardNumber(c) == "1234-****-****-3456"
  {
    DigitsOfAllDigits(c);
    MaskSixteenDigits(c);
    assert c[..4] == "1234";
    assert c[12..] == "3456";
  }
}

=== FILE: js_values.dfy ===
/** The JavaScript values the service and the helpers are called with: those
    a decoded JSON request body can hold, and the IEEE-754 specials. An
    overflowing JSON number such as `1e400` decodes to an infinity; only `NaN`
    comes from direct callers alone. With them, the few language operations
    the code applies to them:
    `typeof v === 'number'`, `v <= 0`, `Number.isFinite(v)` and truthiness. */
module JsValues {

  /** Finite numbers are kept exactly as reals (both zeros are `Num(0.0)`);
      the three IEEE-754 specials are separate constructors. Objects and arrays
      are opaque: an identity tells them apart, and `text` is what `String(v)`
      gives for them (`"[object Object]"` for a plain object, the
      comma-joined elements for an array). */
  datatype JsValue =
    | Num(value: real)
    | NaN
    | PosInf
    | NegInf
    | Str(s: string)
    | Bool(b: bool)
    | Null
    | Undefined
    | Object(identity: nat, text: string)

  /** `typeof v === 'number'` */
  predicate IsNumber(v: JsValue) {
    v.Num? || v.NaN? || v.PosInf? || v.NegInf?
  }

  /** The abstract relational comparison `v <= 0` on a number: every
      comparison with NaN is false, and only -Infinity among the specials is
      below zero. */
  predicate AtMostZero(v: JsValue)
    requires IsNumber(v)
  {
    match v
    case Num(x) => x <= 0.0
    case NaN => false
    case PosInf => false
    case NegInf => true
  }

  /** `Number.isFinite(v)`: true only for numbers that are neither NaN nor
      infinite; never true for a non-number (no coercion, unlike `isFinite`). */
  predicate IsFinite(v: JsValue) {
    v.Num?
  }

  /** ToBoolean: the falsy values are `false`, `0`, `NaN`, `""`, `null` and
      `undefined`; everything else is truthy. */
  predicate Truthy(v: JsValue) {
    match v
    case Num(x) => x != 0.0
    case NaN => false
    case PosInf => true
    case NegInf => true
    case Str(s) => s != ""
    case Bool(b) => b
    case Null => false
    case Undefined => false
    case Object(_, _) => true
  }
}

=== FILE: order_ids.dfy ===
/** The string-shaping part of order-id generation: an id is
    `ORD-<timestamp in base 36>-<four random bytes in hex>`, upper-cased.
    The clock reading and the random bytes are inputs here; the model proves
    that the id can be parsed back into them, so two ids are equal only when
    they were made from the same clock reading and the same random bytes. */
module OrderIds {
  import opened Wrappers

  newtype byte = x: int | 0 <= x < 256

  /** `crypto.randomBytes(4)` always yields four bytes. */
  type RandomBytes = b: seq<byte> | |b| == 4 witness [0, 0, 0, 0]

  /** What one call to the generator reads from its environment: the clock
      (`Date.now()`, milliseconds since the epoch) and four random bytes. */
  datatype IdSeed = IdSeed(timestamp: nat, random: RandomBytes)

  // ---------------------------------------------------------------------------
  // Digits and upper case
  // ---------------------------------------------------------------------------

  /** The lower-case digit `Number.prototype.toString(36)` and
      `Buffer.toString('hex')` write for a digit value. */
  function DigitChar(v: nat): (c: char)
    requires v < 36
    ensures '0' <= c <= '9' || 'a' <= c <= 'z'
  {
    if v < 10 then ('0' as int + v) as char else ('a' as int + v - 10) as char
  }

  /** `toUpperCase` on one character. Every character of an order id is
      ASCII, where the full Unicode mapping of `toUpperCase` reduces to this
      one. */
  function UpperChar(c: char): (u: char)
    ensures !('a' <= u <= 'z')
    ensures !('a' <= c <= 'z') ==> u == c
  {
    if 'a' <= c <= 'z' then (c as int - 32) as char else c
  }

  function ToUpper(s: string): (u: string)
    ensures |u| == |s|
    ensures forall i :: 0 <= i < |s| ==> u[i] == UpperChar(s[i])
  {
    seq(|s|, i requires 0 <= i < |s| => UpperChar(s[i]))
  }

  predicate IsUpper(s: string) {
    forall i :: 0 <= i < |s| ==> !('a' <= s[i] <= 'z')
  }

  /** The value of an upper-case base-36 digit, as found in an order id. */
  function DigitValue(c: char): Option<nat> {
    if '0' <= c <= '9' then Some(c as int - '0' as int)
    else if 'A' <= c <= 'Z' then Some(c as int - 'A' as int + 10)
    else None
  }

  // ---------------------------------------------------------------------------
  // Encoding
  // ---------------------------------------------------------------------------

  /** `n.toString(36)` for a non-negative integer: most significant digit
      first, no leading zeros. */
  function ToBase36(n: nat): (s: string)
    ensures |s| >= 1
    decreases n
  {
    if n < 36 then [DigitChar(n)] else ToBase36(n / 36) + [DigitChar(n % 36)]
  }

  /** `buffer.toString('hex')`: two lower-case digits per byte, high nibble
      first. */
  function ToHex(bytes: seq<byte>): (s: string)
    ensures |s| == 2 * |bytes|
  {
    if bytes == [] then []
    else [DigitChar(bytes[0] as int / 16), DigitChar(bytes[0] as int % 16)] + ToHex(bytes[1..])
  }

  /** `` `ORD-${timestamp}-${randomPart}`.toUpperCase() `` */
  function GenerateOrderId(seed: IdSeed): (id: string)
    ensures |id| >= 14
    ensures id[..4] == "ORD-"
    ensures IsUpper(id)
    ensures ToUpper(id) == id
  {
    var raw := "ORD-" + ToBase36(seed.timestamp) + "-" + ToHex(seed.random);
    var id := ToUpper(raw);
    assert id[..4] == ToUpper(raw[..4]);
    id
  }

  // ---------------------------------------------------------------------------
  // Decoding
  // ---------------------------------------------------------------------------

  function FromBase36(s: string): Option<nat>
  {
    if s == [] then Some(0)
    else
      match (FromBase36(s[..|s| - 1]), DigitValue(s[|s| - 1]))
      case (Some(high), Some(low)) => if low < 36 then Some(high * 36 + low) else None
      case _ => None
  }

  function FromHex(s: string): Option<seq<byte>>
    decreases |s|
  {
    if s == [] then Some([])
    else if |s| == 1 then None
    else
      match (DigitValue(s[0]), DigitValue(s[1]), FromHex(s[2..]))
      case (Some(high), Some(low), Some(rest)) =>
        if high < 16 && low < 16 then Some([(high * 16 + low) as byte] + rest) else None
      case _ => None
  }

  /** Reads the clock value and the random bytes back out of an order id:
      the prefix `ORD-`, a base-36 number, a dash and eight hex digits. */
  function ParseOrderId(id: string): Option<IdSeed> {
    if |id| < 14 || id[..4] != "ORD-" || id[|id| - 9] != '-' then None
    else
      match (FromBase36(id[4..|id| - 9]), FromHex(id[|id| - 8..]))
      case (Some(timestamp), Some(random)) =>
        if |random| == 4 then Some(IdSeed(timestamp, random)) else None
      case _ => None
  }

  // ---------------------------------------------------------------------------
  // Round trip
  // ---------------------------------------------------------------------------

  lemma DigitRoundTrip(v: nat)
    requires v < 36
    ensures DigitValue(UpperChar(DigitChar(v))) == Some(v)
  {
  }

  lemma ToUpperAppend(a: string, b: string)
    ensures ToUpper(a + b) == ToUpper(a) + ToUpper(b)
  {
  }

  lemma {:induction false} Base36RoundTrip(n: nat)
    ensures FromBase36(ToUpper(ToBase36(n))) == Some(n)
    decreases n
  {
    if n < 36 {
      var u := ToUpper(ToBase36(n));
      DigitRoundTrip(n);
      assert u[..0] == [];
    } else {
      var high := ToUpper(ToBase36(n / 36));
      var low := UpperChar(DigitChar(n % 36));
      ToUpperAppend(ToBase36(n / 36), [DigitChar(n % 36)]);
      var u := high + [low];
      assert ToUpper(ToBase36(n)) == u;
      assert u[..|u| - 1] == high;
      Base36RoundTrip(n / 36);
      DigitRoundTrip(n % 36);
    }
  }

  lemma {:induction false} HexRoundTrip(bytes: seq<byte>)
    ensures FromHex(ToUpper(ToHex(bytes))) == Some(bytes)
    decreases |bytes|
  {
    if bytes != [] {
      var b := bytes[0] as int;
      var pair := [DigitChar(b / 16), DigitChar(b % 16)];
      ToUpperAppend(pair, ToHex(bytes[1..]));
      var u := ToUpper(ToHex(bytes));
      assert u[2..] == ToUpper(ToHex(bytes[1..]));
      DigitRoundTrip(b / 16);
      DigitRoundTrip(b % 16);
      HexRoundTrip(bytes[1..]);
      assert [bytes[0]] + bytes[1..] == bytes;
    }
  }

  /** Parsing recovers exactly the clock value and the random bytes an id was
      generated from. */
  lemma ParseGenerateRoundTrip(seed: IdSeed)
    ensures ParseOrderId(GenerateOrderId(seed)) == Some(seed)
  {
    var t := ToBase36(seed.timestamp);
    var h := ToHex(seed.random);
    var id := GenerateOrderId(seed);
    ToUpperAppend("ORD-" + t + "-", h);
    ToUpperAppend("ORD-" + t, "-");
    ToUpperAppend("ORD-", t);
    assert id == ToUpper("ORD-") + ToUpper(t) + ToUpper("-") + ToUpper(h);
    assert id[4..|id| - 9] == ToUpper(t);
    assert id[|id| - 8..] == ToUpper(h);
    Base36RoundTrip(seed.timestamp);
    HexRoundTrip(seed.random);
  }

  /** Distinct clock readings or distinct random bytes give distinct ids. */
  lemma GenerateOrderIdInjective(s1: IdSeed, s2: IdSeed)
    requires GenerateOrderId(s1) == GenerateOrderId(s2)
    ensures s1 == s2
  {
    ParseGenerateRoundTrip(s1);
    ParseGenerateRoundTrip(s2);
  }
}

=== FILE: payment_runs.dfy ===
/** Sequences of service calls against one ledger, and the properties that
    hold across them: the record invariant every call keeps, the ledger only
    growing, the fields fixed at creation never changing, statuses only
    moving forward, and `cancelled` being final. */
module PaymentRuns {
  import opened Wrappers
  import opened JsValues
  import opened PaymentService
  import OrderIds

  // ---------------------------------------------------------------------------
  // The record invariant
  // ---------------------------------------------------------------------------

  /** What every record in the ledger satisfies between two calls: a
      supported gateway, a positive amount, never the transient `processing`
      status, and the optional fields set exactly as its status says. */
  predicate ValidTransaction(t: Transaction) {
    && t.gateway in SupportedGateways
    && t.amount > 0.0
    && t.status != Processing
    && (t.status == Initialized ==>
          t.paymentDetails.None? && t.completedAt.None? && t.cancellationReason.None? && t.cancelledAt.None?)
    && (t.status == Completed ==>
          t.paymentDetails.Some? && t.completedAt.Some? && t.cancellationReason.None? && t.cancelledAt.None?)
    && (t.status == Cancelled ==> t.cancellationReason.Some? && t.cancelledAt.Some?)
    && (t.paymentDetails.Some? <==> t.completedAt.Some?)
  }

  /** Every record is stored under its own transaction id and is valid. */
  predicate ValidLedger(ledger: Ledger) {
    forall id :: id in ledger ==> ledger[id].transactionId == id && ValidTransaction(ledger[id])
  }

  // ---------------------------------------------------------------------------
  // Calls and runs
  // ---------------------------------------------------------------------------

  /** One call to the service with everything it reads from its environment. */
  datatype Call =
    | Initialize(data: PaymentData, now: Timestamp, idSeed: OrderIds.IdSeed, orderSeed: OrderIds.IdSeed)
    | Process(transactionId: string, paymentDetails: JsValue, now: Timestamp)
    | GetStatus(transactionId: string)
    | Cancel(transactionId: string, reason: JsValue, now: Timestamp)
    | ListGateways

  /** The ledger after one call: the new ledger on success, the old one
      when processing or cancelling throws, and whatever initialization left
      behind, which holds the new record even when it throws. */
  function Step(ledger: Ledger, call: Call): Ledger {
    match call
    case Initialize(data, now, idSeed, orderSeed) =>
      InitializePayment(ledger, data, now, idSeed, orderSeed).ledger
    case Process(id, details, now) =>
      (match ProcessPayment(ledger, id, details, now)
       case Ok((ledger', _)) => ledger'
       case Err(_) => ledger)
    case GetStatus(_) => ledger
    case Cancel(id, reason, now) =>
      (match CancelPayment(ledger, id, reason, now)
       case Ok((ledger', _)) => ledger'
       case Err(_) => ledger)
    case ListGateways => ledger
  }

  function Run(ledger: Ledger, calls: seq<Call>): Ledger
    decreases |calls|
  {
    if calls == [] then ledger else Run(Step(ledger, calls[0]), calls[1..])
  }

  /** The call does not generate a transaction id that is already in use. */
  predicate FreshCall(ledger: Ledger, call: Call) {
    call.Initialize? ==> OrderIds.GenerateOrderId(call.idSeed) !in ledger
  }

  /** Every initialization along the run generates an unused transaction id. */
  predicate FreshRun(ledger: Ledger, calls: seq<Call>)
    decreases |calls|
  {
    calls == [] || (FreshCall(ledger, calls[0]) && FreshRun(Step(ledger, calls[0]), calls[1..]))
  }

  /** The statuses in the order the state machine visits them. */
  function StatusRank(s: Status): nat {
    match s
    case Initialized => 0
    case Processing => 1
    case Completed => 2
    case Cancelled => 3
  }

  /** The fields fixed when the record is created. */
  predicate SameIdentity(t: Transaction, t': Transaction) {
    && t'.transactionId == t.transactionId
    && t'.orderId == t.orderId
    && t'.gateway == t.gateway
    && t'.amount == t.amount
    && t'.currency == t.currency
    && t'.productName == t.productName
    && t'.customerName == t.customerName
    && t'.createdAt == t.createdAt
  }

  /** How one call may change the status of an existing record:
      `initialized` to `completed` by processing, and any status other than
      `cancelled` to `cancelled`, completed ones included. */
  predicate StatusChange(before: Status, after: Status) {
    || before == after
    || (before == Initialized && after == Completed)
    || (before != Cancelled && after == Cancelled)
  }

  // ---------------------------------------------------------------------------
  // One call
  // ---------------------------------------------------------------------------

  lemma EmptyLedgerValid()
    ensures ValidLedger(EmptyLedger)
    ensures |EmptyLedger| == 0
  {
  }

  /** Initialization keeps the invariant whether it returns or throws: a
      call refused for its gateway or amount stores nothing, and any other
      call stores a valid record under its own id, also when the currency
      code then makes it throw. */
  lemma InitializeKeepsValid(ledger: Ledger, data: PaymentData, now: Timestamp,
                             idSeed: OrderIds.IdSeed, orderSeed: OrderIds.IdSeed)
    requires ValidLedger(ledger)
    ensures ValidLedger(InitializePayment(ledger, data, now, idSeed, orderSeed).ledger)
  {
    if IsSupportedGateway(data.gateway) && data.amount.Num? && data.amount.value > 0.0 {
      var ledger' := InitializePayment(ledger, data, now, idSeed, orderSeed).ledger;
      var id := OrderIds.GenerateOrderId(idSeed);
      assert ValidTransaction(ledger'[id]);
      forall k | k in ledger'
        ensures ledger'[k].transactionId == k && ValidTransaction(ledger'[k])
      {
        if k != id {
          assert k in ledger && ledger'[k] == ledger[k];
        }
      }
    }
  }

  /** A successful processing leaves a valid, completed record. */
  lemma ProcessKeepsValid(ledger: Ledger, id: string, details: JsValue, now: Timestamp)
    requires ValidLedger(ledger)
    requires ProcessPayment(ledger, id, details, now).Ok?
    ensures ValidLedger(ProcessPayment(ledger, id, details, now).value.0)
  {
    var ledger' := ProcessPayment(ledger, id, details, now).value.0;
    assert ValidTransaction(ledger'[id]);
  }

  /** A successful cancellation leaves a valid, cancelled record. */
  lemma CancelKeepsValid(ledger: Ledger, id: string, reason: JsValue, now: Timestamp)
    requires ValidLedger(ledger)
    requires CancelPayment(ledger, id, reason, now).Ok?
    ensures ValidLedger(CancelPayment(ledger, id, reason, now).value.0)
  {
    var ledger' := CancelPayment(ledger, id, reason, now).value.0;
    assert ValidTransaction(ledger'[id]);
  }

  /** Every call keeps the record invariant. */
  lemma StepPreservesValid(ledger: Ledger, call: Call)
    requires ValidLedger(ledger)
    ensures ValidLedger(Step(ledger, call))
  {
    match call
    case Initialize(data, now, idSeed, orderSeed) =>
      InitializeKeepsValid(ledger, data, now, idSeed, orderSeed);
    case Process(id, details, now) =>
      if ProcessPayment(ledger, id, details, now).Ok? {
        ProcessKeepsValid(ledger, id, details, now);
      }
    case GetStatus(_) =>
    case Cancel(id, reason, now) =>
      if CancelPayment(ledger, id, reason, now).Ok? {
        CancelKeepsValid(ledger, id, reason, now);
      }
    case ListGateways =>
  }

  /** A call never removes a record, and a call with a fresh transaction id
      changes an existing record only in its status and in the fields that
      status carries: the status moves along the state machine, and a
      cancelled record is not changed at all. */
  lemma StepPreservesRecords(ledger: Ledger, call: Call, id: string)
    requires id in ledger
    requires FreshCall(ledger, call)
    ensures id in Step(ledger, call)
    ensures SameIdentity(ledger[id], Step(ledger, call)[id])
    ensures StatusChange(ledger[id].status, Step(ledger, call)[id].status)
    ensures ledger[id].status == Cancelled ==> Step(ledger, call)[id] == ledger[id]
  {
  }

  lemma StepKeepsKeys(ledger: Ledger, call: Call)
    ensures ledger.Keys <= Step(ledger, call).Keys
  {
  }

  // ---------------------------------------------------------------------------
  // Runs
  // ---------------------------------------------------------------------------

  /** The record invariant holds after any sequence of calls. */
  lemma {:induction false} RunPreservesValid(ledger: Ledger, calls: seq<Call>)
    requires ValidLedger(ledger)
    ensures ValidLedger(Run(ledger, calls))
    decreases |calls|
  {
    if calls != [] {
      StepPreservesValid(ledger, calls[0]);
      RunPreservesValid(Step(ledger, calls[0]), calls[1..]);
    }
  }

  /** Records are never deleted. */
  lemma {:induction false} RunKeepsKeys(ledger: Ledger, calls: seq<Call>)
    ensures ledger.Keys <= Run(ledger, calls).Keys
    decreases |calls|
  {
    if calls != [] {
      StepKeepsKeys(ledger, calls[0]);
      RunKeepsKeys(Step(ledger, calls[0]), calls[1..]);
    }
  }

  /** Along a run whose generated ids are fresh, every existing record keeps
      the fields fixed at its creation, its status never moves backwards, and
      once cancelled it never changes again. */
  lemma {:induction false} RunPreservesRecords(ledger: Ledger, calls: seq<Call>, id: string)
    requires id in ledger
    requires FreshRun(ledger, calls)
    ensures id in Run(ledger, calls)
    ensures SameIdentity(ledger[id], Run(ledger, calls)[id])
    ensures StatusRank(ledger[id].status) <= StatusRank(Run(ledger, calls)[id].status)
    ensures ledger[id].status == Cancelled ==> Run(ledger, calls)[id] == ledger[id]
    decreases |calls|
  {
    if calls != [] {
      var next := Step(ledger, calls[0]);
      StepPreservesRecords(ledger, calls[0], id);
      RunPreservesRecords(next, calls[1..], id);
    }
  }

  // ---------------------------------------------------------------------------
  // Repeated calls
  // ---------------------------------------------------------------------------

  /** A processed transaction cannot be processed again. */
  lemma ProcessTwiceFails(ledger: Ledger, id: string, details: JsValue, now: Timestamp,
                          details': JsValue, now': Timestamp)
    requires ProcessPayment(ledger, id, details, now).Ok?
    ensures ProcessPayment(ProcessPayment(ledger, id, details, now).value.0, id, details', now')
      == Err(InvalidStatusForProcessing)
  {
  }

  /** A cancelled transaction cannot be cancelled again. */
  lemma CancelTwiceFails(ledger: Ledger, id: string, reason: JsValue, now: Timestamp,
                         reason': JsValue, now': Timestamp)
    requires CancelPayment(ledger, id, reason, now).Ok?
    ensures CancelPayment(CancelPayment(ledger, id, reason, now).value.0, id, reason', now')
      == Err(AlreadyCancelled)
  {
  }

  /** Cancelling is refused only for a missing or an already cancelled
      record: a completed payment can still be cancelled. */
  lemma CompletedCanBeCancelled(ledger: Ledger, id: string, reason: JsValue, now: Timestamp)
    requires id in ledger && ledger[id].status == Completed
    ensures CancelPayment(ledger, id, reason, now).Ok?
    ensures CancelPayment(ledger, id, reason, now).value.0[id].completedAt == ledger[id].completedAt
  {
  }

  // ---------------------------------------------------------------------------
  // Reading the status back
  // ---------------------------------------------------------------------------

  /** Once initialization is past its gateway and amount checks, a status
      read of the generated id shows the new record: `initialized`, with the
      order id, amount, currency and gateway of the request and both time
      stamps at the time of the call. This holds even when the call then
      throws for its currency code. */
  lemma InitializeThenStatus(ledger: Ledger, data: PaymentData, now: Timestamp,
                             idSeed: OrderIds.IdSeed, orderSeed: OrderIds.IdSeed)
    requires IsSupportedGateway(data.gateway) && data.amount.Num? && data.amount.value > 0.0
    ensures
      var out := InitializePayment(ledger, data, now, idSeed, orderSeed);
      var id := OrderIds.GenerateOrderId(idSeed);
      var snapshot := GetTransactionStatus(out.ledger, id);
      && snapshot.Ok?
      && snapshot.value.status == Initialized
      && snapshot.value.amount == data.amount
      && Str(snapshot.value.gateway) == data.gateway
      && snapshot.value.currency == (if data.currency.Undefined? then Str("KRW") else data.currency)
      && snapshot.value.createdAt == snapshot.value.updatedAt == now
      && (out.result.Ok? ==> snapshot.value.orderId == out.result.value.orderId)
  {
  }

  /** After a successful processing, a status read shows `completed`, the
      time of the call as last update, and everything else as before. */
  lemma ProcessThenStatus(ledger: Ledger, id: string, details: JsValue, now: Timestamp)
    requires ProcessPayment(ledger, id, details, now).Ok?
    ensures
      var before := GetTransactionStatus(ledger, id);
      var after := GetTransactionStatus(ProcessPayment(ledger, id, details, now).value.0, id);
      && before.Ok? && after.Ok?
      && before.value.status == Initialized
      && after.value == before.value.(status := Completed, updatedAt := now)
  {
  }

  /** After a successful cancellation, a status read shows `cancelled`, the
      time of the call as last update, and everything else as before. */
  lemma CancelThenStatus(ledger: Ledger, id: string, reason: JsValue, now: Timestamp)
    requires CancelPayment(ledger, id, reason, now).Ok?
    ensures
      var before := GetTransactionStatus(ledger, id);
      var after := GetTransactionStatus(CancelPayment(ledger, id, reason, now).value.0, id);
      && before.Ok? && after.Ok?
      && before.value.status != Cancelled
      && after.value == before.value.(status := Cancelled, updatedAt := now)
  {
  }

  // ---------------------------------------------------------------------------
  // Scenarios
  // ---------------------------------------------------------------------------

  /** A request with a supported gateway, a positive amount and no currency
      initializes; a status read shows `initialized` and the amount;
      processing completes it, a second status read shows `completed`, and a
      second processing attempt is refused. */
  lemma ScenarioInitializeAndProcess(ledger: Ledger, data: PaymentData, now: Timestamp,
                                     idSeed: OrderIds.IdSeed, orderSeed: OrderIds.IdSeed, details: JsValue)
    requires IsSupportedGateway(data.gateway) && data.amount.Num? && data.amount.value > 0.0
    requires data.currency == Undefined
    ensures InitializePayment(ledger, data, now, idSeed, orderSeed).result.Ok?
    ensures
      var out := InitializePayment(ledger, data, now, idSeed, orderSeed);
      var (l1, x) := (out.ledger, out.result.value.transactionId);
      && GetTransactionStatus(l1, x).Ok?
      && GetTransactionStatus(l1, x).value.status == Initialized
      && GetTransactionStatus(l1, x).value.amount == data.amount
      && ProcessPayment(l1, x, details, now).Ok?
      && ProcessPayment(l1, x, details, now).value.1.status == Completed
      && GetTransactionStatus(ProcessPayment(l1, x, details, now).value.0, x).value.status == Completed
      && ProcessPayment(ProcessPayment(l1, x, details, now).value.0, x, details, now) == Err(InvalidStatusForProcessing)
  {
  }

  /** Initialize with `kg`, 8000 and no currency, cancel (`cancelled`),
      cancel again: the second cancellation is refused as already
      cancelled. */
  lemma ScenarioCancelTwice(ledger: Ledger, data: PaymentData, now: Timestamp,
                            idSeed: OrderIds.IdSeed, orderSeed: OrderIds.IdSeed)
    requires data.gateway == Str("kg") && data.amount == Num(8000.0) && data.currency == Undefined
    ensures InitializePayment(ledger, data, now, idSeed, orderSeed).result.Ok?
    ensures
      var out := InitializePayment(ledger, data, now, idSeed, orderSeed);
      var (l1, y) := (out.ledger, out.result.value.transactionId);
      && CancelPayment(l1, y, Str("First cancel"), now).Ok?
      && CancelPayment(l1, y, Str("First cancel"), now).value.1.status == Cancelled
      && CancelPayment(CancelPayment(l1, y, Str("First cancel"), now).value.0, y, Str("Second cancel"), now)
           == Err(AlreadyCancelled)
  {
  }

  /** An amount that overflows to an infinity in the request body (`1e400`,
      `-1e400`) is refused by the finiteness check, and the ledger is left as
      it was. */
  lemma InfiniteAmountRefused(ledger: Ledger, data: PaymentData, now: Timestamp,
                              idSeed: OrderIds.IdSeed, orderSeed: OrderIds.IdSeed)
    requires IsSupportedGateway(data.gateway)
    requires data.amount == PosInf || data.amount == NegInf
    ensures InitializePayment(ledger, data, now, idSeed, orderSeed) == InitOutcome(ledger, Err(InvalidAmount))
  {
  }

  /** A request whose currency code `Intl.NumberFormat` rejects throws, yet
      its record stays in the ledger under an id the caller never learns;
      with a fresh id the ledger has grown by one. */
  lemma RejectedCurrencyStillStores(ledger: Ledger, data: PaymentData, now: Timestamp,
                                    idSeed: OrderIds.IdSeed, orderSeed: OrderIds.IdSeed)
    requires IsSupportedGateway(data.gateway) && data.amount.Num? && data.amount.value > 0.0
    requires data.currency == Str("")
    requires OrderIds.GenerateOrderId(idSeed) !in ledger
    ensures InitializePayment(ledger, data, now, idSeed, orderSeed).result == Err(InvalidCurrencyCode(Str("")))
    ensures OrderIds.GenerateOrderId(idSeed) in InitializePayment(ledger, data, now, idSeed, orderSeed).ledger
    ensures |InitializePayment(ledger, data, now, idSeed, orderSeed).ledger| == |ledger| + 1
  {
    InitializeGrowsByOne(ledger, data, now, idSeed, orderSeed);
  }
}

=== FILE: payment_service.dfy ===
/** The payment service: a ledger of transactions keyed by transaction id and
    the operations that create, process, cancel and query them, plus the
    fixed table of supported gateways.

    Every operation is a pure function of the ledger before the call.
    Processing and cancelling make all their checks before they change
    anything, so they return a `Result`: `Err` for each error they throw,
    with the ledger left as it was, and `Ok` with the ledger after the call
    and the response. Initialization can throw after it has stored the new
    record, so it returns the ledger after the call together with its
    `Result` (`InitOutcome`). */
module PaymentService {
  import opened Wrappers
  import opened JsValues
  import Helpers
  import OrderIds

  // ---------------------------------------------------------------------------
  // Gateways
  // ---------------------------------------------------------------------------

  /** The supported gateways, in the order the constructor lists them. */
  const SupportedGateways: seq<string> := ["inicis", "kg", "nice", "toss", "kakao"]

  /** The display-name table (own properties of the lookup object). */
  const DisplayNames: map<string, string> := map[
    "inicis" := "KG이니시스",
    "kg" := "KG모빌리언스",
    "nice" := "NICE페이먼츠",
    "toss" := "토스페이먼츠",
    "kakao" := "카카오페이"
  ]

  /** `supportedGateways.includes(gateway)`: only a string equal to one of the
      five ids is included; every other value, `undefined` among them, is not. */
  predicate IsSupportedGateway(gateway: JsValue) {
    gateway.Str? && gateway.s in SupportedGateways
  }

  /** `names[gateway] || gateway`: the table's name, or the id itself when the
      table has no (truthy) entry for it. */
  function GatewayDisplayName(gateway: string): (name: string)
    ensures gateway in DisplayNames ==> name == DisplayNames[gateway] && name != ""
    ensures gateway !in DisplayNames ==> name == gateway
  {
    if gateway in DisplayNames && DisplayNames[gateway] != "" then DisplayNames[gateway] else gateway
  }

  datatype GatewayInfo = GatewayInfo(id: string, name: string)

  /** Every supported gateway with its display name, in constructor order. */
  function GetSupportedGateways(): (gateways: seq<GatewayInfo>)
    ensures |gateways| == |SupportedGateways| == 5
    ensures forall i :: 0 <= i < |gateways| ==>
      gateways[i].id == SupportedGateways[i] && gateways[i].name == DisplayNames[gateways[i].id] && gateways[i].name != ""
  {
    seq(|SupportedGateways|, i requires 0 <= i < |SupportedGateways| =>
      GatewayInfo(SupportedGateways[i], GatewayDisplayName(SupportedGateways[i])))
  }

  // ---------------------------------------------------------------------------
  // Transactions and the ledger
  // ---------------------------------------------------------------------------

  datatype Status = Initialized | Processing | Completed | Cancelled

  /** An ISO-8601 time stamp; the clock is an input of each operation. */
  type Timestamp = string

  /** One ledger record. Properties the service never set on the record are
      `None` (they read as `undefined`). */
  datatype Transaction = Transaction(
    transactionId: string,
    orderId: JsValue,
    gateway: string,
    amount: real,
    currency: JsValue,
    productName: JsValue,
    customerName: JsValue,
    status: Status,
    createdAt: Timestamp,
    updatedAt: Timestamp,
    paymentDetails: Option<JsValue>,
    completedAt: Option<Timestamp>,
    cancellationReason: Option<JsValue>,
    cancelledAt: Option<Timestamp>)

  type Ledger = map<string, Transaction>

  /** The fields of an initialization request; a field the request did not
      carry is `Undefined`. */
  datatype PaymentData = PaymentData(
    gateway: JsValue,
    amount: JsValue,
    currency: JsValue,
    orderId: JsValue,
    productName: JsValue,
    customerName: JsValue)

  /** The errors the service throws, one per `throw` site. */
  datatype PaymentError =
    | UnsupportedGateway(gateway: JsValue)
    | InvalidAmount
    | TransactionNotFound
    | InvalidStatusForProcessing
    | AlreadyCancelled
    | InvalidCurrencyCode(currency: JsValue)

  datatype InitResponse = InitResponse(transactionId: string, orderId: JsValue)

  /** What initializePayment leaves behind: the ledger after the call, which
      holds the new record even when the call throws while building its
      response, and the response or the error thrown. */
  datatype InitOutcome = InitOutcome(ledger: Ledger, result: Result<InitResponse, PaymentError>)
  datatype StatusResponse = StatusResponse(transactionId: string, status: Status)
  datatype StatusSnapshot = StatusSnapshot(
    transactionId: string,
    orderId: JsValue,
    status: Status,
    amount: JsValue,
    currency: JsValue,
    gateway: string,
    createdAt: Timestamp,
    updatedAt: Timestamp)

  /** The ledger of a newly constructed service. */
  const EmptyLedger: Ledger := map[]

  /** The destructuring default `currency = 'KRW'`: it replaces `undefined`
      only, not `null` or any other value. */
  function CurrencyOrDefault(currency: JsValue): JsValue {
    if currency.Undefined? then Str("KRW") else currency
  }

  // ---------------------------------------------------------------------------
  // Operations
  // ---------------------------------------------------------------------------

  /** The record initializePayment stores for a request: `initialized`
      under its id, with the order id supplied when truthy and a generated
      one otherwise, the request's gateway, amount, product and customer
      names, its currency or `KRW` when it has none, both time stamps at the
      call, and none of the fields processing or cancelling set. */
  predicate IsNewRecord(t: Transaction, id: string, data: PaymentData, now: Timestamp,
                        orderSeed: OrderIds.IdSeed) {
    && t.transactionId == id
    && t.status == Initialized
    && t.orderId == (if Truthy(data.orderId) then data.orderId else Str(OrderIds.GenerateOrderId(orderSeed)))
    && Str(t.gateway) == data.gateway
    && Num(t.amount) == data.amount
    && (data.currency.Undefined? ==> t.currency == Str("KRW"))
    && (!data.currency.Undefined? ==> t.currency == data.currency)
    && t.productName == data.productName && t.customerName == data.customerName
    && t.createdAt == t.updatedAt == now
    && t.paymentDetails.None? && t.completedAt.None?
    && t.cancellationReason.None? && t.cancelledAt.None?
  }

  /** initializePayment. The gateway is checked first, then the amount; both
      failures leave the ledger as it was. Past them the record is stored under
      the generated transaction id (an existing entry under the same id would
      be replaced, as `Map.set` does); the order id is the supplied one when
      truthy and a second generated id otherwise. Only then is the response
      built, and `formatCurrency` throws there for a currency code
      `Intl.NumberFormat` rejects, so such a call fails with the record
      already stored. `now` stands for the clock, `idSeed` and `orderSeed` for
      the clock and random bytes read by the two calls of the id generator. */
  function InitializePayment(ledger: Ledger, data: PaymentData, now: Timestamp,
                             idSeed: OrderIds.IdSeed, orderSeed: OrderIds.IdSeed)
    : (r: InitOutcome)
    ensures !IsSupportedGateway(data.gateway) ==> r == InitOutcome(ledger, Err(UnsupportedGateway(data.gateway)))
    ensures IsSupportedGateway(data.gateway) && !Helpers.ValidateAmount(data.amount) ==> r == InitOutcome(ledger, Err(InvalidAmount))
    ensures r.result.Ok? <==>
      IsSupportedGateway(data.gateway) && data.amount.Num? && data.amount.value > 0.0
      && (data.currency.Undefined? || Helpers.FormatCurrencyAccepts(data.currency))
    ensures (IsSupportedGateway(data.gateway) && data.amount.Num? && data.amount.value > 0.0
             && !Helpers.FormatCurrencyAccepts(data.currency)) ==> r.result == Err(InvalidCurrencyCode(data.currency))
    ensures IsSupportedGateway(data.gateway) && data.amount.Num? && data.amount.value > 0.0 ==>
      r.ledger.Keys == ledger.Keys + {OrderIds.GenerateOrderId(idSeed)}
    ensures IsSupportedGateway(data.gateway) && data.amount.Num? && data.amount.value > 0.0 ==>
      var (ledger', id) := (r.ledger, OrderIds.GenerateOrderId(idSeed));
      && (forall k :: k in ledger && k != id ==> ledger'[k] == ledger[k])
      && IsNewRecord(ledger'[id], id, data, now, orderSeed)
      && (r.result.Ok? ==> r.result.value == InitResponse(id, ledger'[id].orderId))
  {
    if !IsSupportedGateway(data.gateway) then InitOutcome(ledger, Err(UnsupportedGateway(data.gateway)))
    else if !Helpers.ValidateAmount(data.amount) then InitOutcome(ledger, Err(InvalidAmount))
    else
      var transactionId := OrderIds.GenerateOrderId(idSeed);
      var orderId := if Truthy(data.orderId) then data.orderId else Str(OrderIds.GenerateOrderId(orderSeed));
      var currency := CurrencyOrDefault(data.currency);
      var transaction := Transaction(
        transactionId, orderId, data.gateway.s, data.amount.value, currency,
        data.productName, data.customerName, Initialized, now, now, None, None, None, None);
      var ledger' := ledger[transactionId := transaction];
      if !Helpers.FormatCurrencyAccepts(currency) then InitOutcome(ledger', Err(InvalidCurrencyCode(currency)))
      else InitOutcome(ledger', Ok(InitResponse(transactionId, orderId)))
  }

  /** Past the gateway and amount checks, a fresh generated id makes the
      ledger grow by exactly one record, whether the call then returns or
      throws for its currency. */
  lemma InitializeGrowsByOne(ledger: Ledger, data: PaymentData, now: Timestamp,
                             idSeed: OrderIds.IdSeed, orderSeed: OrderIds.IdSeed)
    requires IsSupportedGateway(data.gateway) && data.amount.Num? && data.amount.value > 0.0
    requires OrderIds.GenerateOrderId(idSeed) !in ledger
    ensures |InitializePayment(ledger, data, now, idSeed, orderSeed).ledger| == |ledger| + 1
  {
    var ledger' := InitializePayment(ledger, data, now, idSeed, orderSeed).ledger;
    var id := OrderIds.GenerateOrderId(idSeed);
    assert ledger'.Keys == ledger.Keys + {id};
    assert |ledger'.Keys| == |ledger.Keys| + 1;
  }

  /** The first half of processPayment: the record enters `processing` with
      the payment details attached. */
  function BeginProcessing(t: Transaction, paymentDetails: JsValue, now: Timestamp): Transaction {
    t.(status := Processing, updatedAt := now, paymentDetails := Some(paymentDetails))
  }

  /** The second half: the (simulated) gateway call succeeds at once. */
  function FinishProcessing(t: Transaction, now: Timestamp): Transaction {
    t.(status := Completed, completedAt := Some(now), updatedAt := now)
  }

  /** processPayment. Only an `initialized` record can be processed; it
      passes through `processing` and leaves the call `completed`. */
  function ProcessPayment(ledger: Ledger, transactionId: string, paymentDetails: JsValue, now: Timestamp)
    : (r: Result<(Ledger, StatusResponse), PaymentError>)
    ensures transactionId !in ledger ==> r == Err(TransactionNotFound)
    ensures transactionId in ledger && ledger[transactionId].status != Initialized ==> r == Err(InvalidStatusForProcessing)
    ensures r.Ok? <==> transactionId in ledger && ledger[transactionId].status == Initialized
    ensures r.Ok? ==> r.value.0.Keys == ledger.Keys
    ensures r.Ok? ==>
      var (ledger', response) := r.value;
      var (before, after) := (ledger[transactionId], ledger'[transactionId]);
      && (forall k :: k in ledger && k != transactionId ==> ledger'[k] == ledger[k])
      && response == StatusResponse(transactionId, Completed)
      && after.status == Completed
      && after.paymentDetails == Some(paymentDetails)
      && after.completedAt == Some(now) && after.updatedAt == now
      && after.transactionId == before.transactionId && after.orderId == before.orderId
      && after.gateway == before.gateway && after.amount == before.amount
      && after.currency == before.currency && after.createdAt == before.createdAt
      && after.productName == before.productName && after.customerName == before.customerName
      && after.cancellationReason == before.cancellationReason && after.cancelledAt == before.cancelledAt
  {
    if transactionId !in ledger then Err(TransactionNotFound)
    else
      var transaction := ledger[transactionId];
      if transaction.status != Initialized then Err(InvalidStatusForProcessing)
      else
        var processing := BeginProcessing(transaction, paymentDetails, now);
        var completed := FinishProcessing(processing, now);
        Ok((ledger[transactionId := completed], StatusResponse(transactionId, completed.status)))
  }

  /** getTransactionStatus: a read-only projection of one record. */
  function GetTransactionStatus(ledger: Ledger, transactionId: string): (r: Result<StatusSnapshot, PaymentError>)
    ensures r.Err? <==> transactionId !in ledger
    ensures r.Err? ==> r.error == TransactionNotFound
    ensures r.Ok? ==>
      var t := ledger[transactionId];
      && r.value.transactionId == transactionId
      && r.value.orderId == t.orderId && r.value.status == t.status
      && r.value.amount == Num(t.amount) && r.value.currency == t.currency
      && r.value.gateway == t.gateway
      && r.value.createdAt == t.createdAt && r.value.updatedAt == t.updatedAt
  {
    if transactionId !in ledger then Err(TransactionNotFound)
    else
      var t := ledger[transactionId];
      Ok(StatusSnapshot(transactionId, t.orderId, t.status, Num(t.amount), t.currency, t.gateway, t.createdAt, t.updatedAt))
  }

  /** cancelPayment. Only a missing record and one already `cancelled` are
      refused; a `completed` transaction can still be cancelled. */
  function CancelPayment(ledger: Ledger, transactionId: string, reason: JsValue, now: Timestamp)
    : (r: Result<(Ledger, StatusResponse), PaymentError>)
    ensures transactionId !in ledger ==> r == Err(TransactionNotFound)
    ensures transactionId in ledger && ledger[transactionId].status == Cancelled ==> r == Err(AlreadyCancelled)
    ensures r.Ok? <==> transactionId in ledger && ledger[transactionId].status != Cancelled
    ensures r.Ok? ==> r.value.0.Keys == ledger.Keys
    ensures r.Ok? ==>
      var (ledger', response) := r.value;
      var (before, after) := (ledger[transactionId], ledger'[transactionId]);
      && (forall k :: k in ledger && k != transactionId ==> ledger'[k] == ledger[k])
      && response == StatusResponse(transactionId, Cancelled)
      && after.status == Cancelled
      && after.cancellationReason == Some(reason)
      && after.cancelledAt == Some(now) && after.updatedAt == now
      && after.transactionId == before.transactionId && after.orderId == before.orderId
      && after.gateway == before.gateway && after.amount == before.amount
      && after.currency == before.currency && after.createdAt == before.createdAt
      && after.productName == before.productName && after.customerName == before.customerName
      && after.paymentDetails == before.paymentDetails && after.completedAt == before.completedAt
  {
    if transactionId !in ledger then Err(TransactionNotFound)
    else
      var transaction := ledger[transactionId];
      if transaction.status == Cancelled then Err(AlreadyCancelled)
      else
        var cancelled := transaction.(
          status := Cancelled, cancellationReason := Some(reason), cancelledAt := Some(now), updatedAt := now);
        Ok((ledger[transactionId := cancelled], StatusResponse(transactionId, Cancelled)))
  }
}

=== FILE: wrappers.dfy ===
/** The wrappers used by every operation of the model: a thrown error in the
    service becomes an `Err`, a returned value an `Ok`, and a value that may
    be missing an `Option`. */
module Wrappers {

  datatype Option<+T> = None | Some(value: T)

  datatype Result<+T, +E> = Ok(value: T) | Err(error: E)
}
